=== FILE: README.md ===
# Loan-inquiry backend: verified model of its decision logic

This project models, in Dafny, the three pieces of the loan-inquiry backend that
take real decisions, and proves what they promise:

- **Submission** (`routes/Application.js`, `POST /formsubmit`): the eleven
  required fields are checked in a fixed order and the first absent, falsy or
  white-space-only one is reported with its label. Then a `"other"` loan category
  without free text is rejected. Then the `Application` document is built and
  saved under a fresh identifier, with `loanCategoryOther` kept only for the
  `"other"` category.
- **Listing** (`routes/Admin.js`, `GET /applications`): up to five optional query
  parameters become a conjunctive `Filter`. They are a case-insensitive text
  search OR-ed over eight fields, gender and category equality with `"all"` as a
  wildcard, and inclusive date bounds on `submittedAt`. The reply is a sorted
  permutation of the matching documents, most recent first.
- **Record access and login** (`routes/Admin.js`): get, PDF export and delete
  over the store, modelled as `map<Id, Application>`. Each is found or 404,
  the PDF export is a 500 for a name Node refuses as a header, and delete
  removes exactly one key. The login ladder is 400 for missing
  credentials, 401 for an unknown name or wrong password, and 200 with a token
  otherwise.

Modules, one per concept of the source:

| file | module | models |
|---|---|---|
| `wrappers.dfy` | `Wrappers` | `Option` (JavaScript `null`/`undefined`, failed casts) |
| `js.dfy` | `Js` | JSON body values, truthiness, `toString()`, `trim()` |
| `schema.dfy` | `Schema` | `models/Application.js`: the document, the store, Mongoose's string cast |
| `submission.dfy` | `Submission` | `routes/Application.js` |
| `listing.dfy` | `Listing` | `routes/Admin.js` listing |
| `records.dfy` | `Records` | `routes/Admin.js` get, PDF, delete |
| `login.dfy` | `Login` | `routes/Admin.js` login |

Things from outside the code enter as parameters:

- the request time `now`;
- the identifier the store assigns (`newId`, required to be fresh, as ObjectIds are);
- date parsing, `new Date(x)`, as one function from a JSON value to a time, or `None` for an invalid date (the listing hands it its query strings as string values);
- the authentication middleware's verdict, as a boolean `authorized`;
- bcrypt's comparison (`passwordMatches`) and JWT signing (`sign`);
- whether the store compiles a search term as a regular expression (`patternCompiles`).

Behaviours of the code that the model keeps as they are:

- The `"other"` rule tests only JavaScript truthiness, with no trim, and compares
  the category case-sensitively. So `"   "` is accepted as the free text, and
  `"Other"` does not trigger the rule.
- Mongoose casts each value to `String` when the document is saved, so a number
  or boolean is stored as its text. An array or object passes validation when
  its text is not blank, but then fails the cast, and the request ends in a 500
  with nothing stored.
- A required field whose `toString()` throws ends the request in a 500, by way
  of the handler's `catch`. That happens for an object with its own `toString`
  member, and for an array that holds one. Only fields before it in the fixed
  order are checked.

## Model

| member | source | states |
|---|---|---|
| `Js.NatText` | routes/Application.js:42 | the `toString()` of a non-negative safe integer is a non-empty digit string without a leading zero that reads back as the number |
| `Js.IntText` | routes/Application.js:42 | the `toString()` of a safe integer starts with `-` exactly when it is negative, and the digits after the sign read back as its magnitude |
| `Js.TrimEmptyIffBlank` | routes/Application.js:42 | `value.toString().trim() === ""` holds exactly when every character is JavaScript white space |
| `Schema.CastText` | models/Application.js:4-17 | a string, number or boolean is stored on a `String` path as its `toString()`; `null` carries no text (a required path then fails validation), and arrays and objects fail the cast |
| `Submission.RequiredFieldsMatchSchema` | routes/Application.js:27-39 | the handler's required list has eleven distinct keys, and they are the schema's `required` paths |
| `Submission.FailsIffMissingOrBlank` | routes/Application.js:42 | a field fails iff it is absent, falsy, or its `toString()` returns white space only |
| `Submission.StringFieldFailsIffBlank` | routes/Application.js:42 | a string field never throws, and fails exactly when it is blank, so white-space-only values are rejected |
| `Submission.FirstFailure` | routes/Application.js:41-48 | the result is the position of a field that does not pass and every earlier field passes, and `None` means all pass |
| `Submission.FirstFailureIsUnique` | routes/Application.js:41-48 | a failing field preceded only by passing ones is exactly the position the loop stops at |
| `Submission.Validate` | routes/Application.js:41-56 | the `loanCategoryOther` error happens iff all required fields pass, the category is exactly `"other"` and the free text is falsy; acceptance iff neither |
| `Submission.ValidateReportsFirstFailure` | routes/Application.js:41-48 | the first required field that does not pass decides: a missing, falsy or blank one is reported with its key and "<label> is required", and one whose `toString()` throws gives a crash |
| `Submission.BuildCopiesInput` | routes/Application.js:59-75 | every text path of the built record is the text of the submitted value, `submittedAt` is the request time, and `loanCategoryOther` is the supplied text iff the category is `"other"` and null otherwise |
| `Submission.PresentBuildIsWellFormed` | routes/Application.js:59-75 | a record built from a body whose required fields all pass has no blank required text, and free text only with the `"other"` category |
| `Submission.AcceptedBuildIsWellFormed` | routes/Application.js:41-75 | a record built from an accepted body has no blank required text, and free text only with the `"other"` category |
| `Submission.Submit` | routes/Application.js:8-88 | a 400 happens exactly on a validation rejection and carries its field and message; a 201 happens exactly when validation accepts and every value casts, and it stores exactly the built record under the new id; every other outcome leaves the store unchanged |
| `Submission.SubmitAddsOneRecord` | routes/Application.js:77-82 | a successful submission adds exactly one key, leaves every stored record intact, and the new record is well formed and stamped with the request time |
| `Submission.SubmitPreservesWellFormed` | routes/Application.js:50-75 | the write-time invariant on `loanCategoryOther` and non-blank required text holds of the whole store after any submission |
| `Submission.DuplicateSubmissionsPersist` | models/Application.js:3-20 | no path is unique, so submitting the same body twice stores two records under distinct ids, with the same contents apart from `submittedAt` |
| `Listing.ContainsCIHasWindow` | routes/Admin.js:56-66 | a field the search accepts has a window equal to the term up to ASCII case |
| `Listing.WindowFound` | routes/Admin.js:56-66 | a field with a window equal to the term up to ASCII case is accepted by the search |
| `Listing.ContainsCIIffWindow` | routes/Admin.js:56-66 | the search test holds iff some window of the field equals the term, ignoring ASCII case |
| `Listing.QueryMeaning` | routes/Admin.js:53-76 | a record matches the built filter iff: an empty or absent search, or one of the eight fields contains it; gender and category absent, empty, `"all"` or equal; `fromDate <= submittedAt` when given; `submittedAt <= toDate` when given |
| `Listing.BuildFilterFailsOnBadDate` | routes/Admin.js:72-76 | no filter is built exactly when a given date bound does not parse |
| `Listing.WildcardsImposeNothing` | routes/Admin.js:69-70 | `"all"` or `""` for gender and category yields the same filter as leaving them out |
| `Listing.NoParametersMatchAll` | routes/Admin.js:54-80 | with no query parameters every record matches |
| `Listing.Insert` | routes/Admin.js:79 | inserting into a list sorted by `submittedAt` descending keeps it sorted and adds exactly that element |
| `Listing.List` | routes/Admin.js:78-80 | the result is sorted by `submittedAt` descending and is a permutation of the set of matching store entries |
| `Listing.ListedExactlyTheMatches` | routes/Admin.js:78-82 | a listing contains every matching record as stored, nothing that does not match, and no id twice |
| `Listing.ListApplications` | routes/Admin.js:51-87 | 401 iff unauthenticated; 500 iff a given date bound does not parse or a given search term does not compile as a pattern; otherwise the sorted matching set, which may be empty |
| `Records.GetOne` | routes/Admin.js:90-99 | 404 iff the id is absent; otherwise the stored record unchanged |
| `Records.ExportPdf` | routes/Admin.js:102-119 | 404 iff the id is absent; 500 iff the record exists but its name holds a character Node refuses in the `Content-Disposition` header; otherwise the stored record is handed to the renderer |
| `Records.DispositionSafeIffName` | routes/Admin.js:110-113 | the `Content-Disposition` value is accepted as a header exactly when the applicant's name is |
| `Records.PdfAgreesWithGet` | routes/Admin.js:90-119 | the PDF export succeeds exactly when the detail lookup finds the record and its name is header-safe, with the same record; it is a 500 exactly when the lookup finds a record whose name is not; the two statuses agree exactly when it is not that 500 |
| `Records.AcceptedNameCanBreakPdf` | routes/Admin.js:110-118 | a non-blank name such as "Łukasz", which the required-field check accepts, gives 200 from the detail lookup and 500 from the PDF download |
| `Records.Delete` | routes/Admin.js:123-137 | 404 with the store unchanged iff the id is absent; otherwise exactly that key is removed and every other record is unchanged |
| `Records.DeleteIsFinal` | routes/Admin.js:125-132 | after a delete, a lookup of the id is 404, and a second delete is 404 and changes nothing |
| `Records.DeleteSparesOthers` | routes/Admin.js:130 | deleting one id leaves the lookup of every other id unchanged |
| `Records.DeletePreservesWellFormed` | routes/Admin.js:123-132 | deletion keeps the store-wide write-time invariant |
| `Records.SubmitThenGet` | routes/Application.js:59-82 | the id returned by a 201 looks up a record holding the submitted values, the parsed date of birth, the request time, and the free text exactly when the category is `"other"` |
| `Login.FindAdmin` | routes/Admin.js:23 | the lookup yields the first administrator with that username, or none when no administrator has it |
| `Login.Login` | routes/Admin.js:16-39 | 400 iff a credential is missing or empty; 401 iff the name is unknown or the password does not match; a 200 carries the admin's username and a token signed over its id and username |
| `Login.MissingCredentialsNeedNoLookup` | routes/Admin.js:19-21 | with a missing credential the outcome is 400 whatever the administrators, hash check and signer are, so no lookup is needed |
| `Login.UnknownUserLikeWrongPassword` | routes/Admin.js:23-31 | an unknown username and a wrong password give the same 401 with no token |
| `Login.LoginSucceedsIff` | routes/Admin.js:23-39 | login succeeds iff both credentials are non-empty and the first administrator with that name has a hash that accepts the password |

## Left out

- MongoDB `$regex` semantics (routes/Admin.js:58-65). The search term is a
  regular expression in the store. The model treats it as a literal substring
  with ASCII case folding. A term with metacharacters (`.`, `*`, `(`, ...) or
  non-ASCII letters can therefore match differently.
- Listing.ContainsCIIffWindow: states the literal-substring reading of the search. This reading is weaker than regular-expression matching for terms with metacharacters.
- Listing.QueryMeaning: the search clause uses the same literal-substring reading, for the same reason.
- bcrypt and JWT (routes/Admin.js:28, 33-37): foreign library calls. They are
  the `passwordMatches` and `sign` parameters. Token expiry and verification
  belong to the middleware.
- The `auth` middleware and `models/Admin`: neither is part of this model. The
  middleware's verdict is the `authorized` flag. Administrators are a sequence
  searched like `findOne`.
- PDF rendering (routes/Admin.js:107, 115): external rendering and response
  I/O. `ExportPdf` returns the record handed to the renderer. A failure of the
  renderer itself is not modelled. The header step is: Node's `setHeader`
  refuses a value holding a character other than tab, 0x20-0x7E and
  0x80-0xFF, and the handler then answers 500.
- `new Date(...)` parsing (routes/Application.js:64; routes/Admin.js:74-75): a
  parameter returning a millisecond count or `None`.
- The 500 paths of the `try`/`catch` blocks. Store and runtime failures are not
  modelled. The exceptions are a `toString()` that throws, cast failures,
  unparseable dates, search terms that do not compile, and names refused as
  a header: `Submit`, `ListApplications` and `ExportPdf` answer those with a
  server error and write nothing.
- The order of records with equal `submittedAt`: the store does not specify it.
- Concurrency: requests are modelled one at a time. The delete handler's
  `findById` and `deleteOne` are two store calls, so two concurrent deletes of
  one id can both answer 200. `Records.DeleteIsFinal` holds for requests that
  run in sequence.
- Which search terms fail to compile as a MongoDB regular expression (for
  example `"+91"` or `"("`): `ListApplications` takes that judgement as the
  `patternCompiles` parameter and answers 500 for such a term.
- Malformed ids in the path: the store rejects them with a 500. Ids are taken
  as already parsed.
- Non-string query parameters and credentials (arrays or objects from the query
  parser or the JSON body). Query parameters and credentials are absent or strings.
- Fractional JSON numbers and integers above `Number.MAX_SAFE_INTEGER` (2^53 - 1)
  in magnitude. `JSON.parse` rounds such an integer to a double, and
  `toString()` prints the shortest text that reads back as that double, so
  12345678901234567890 is stored as "12345678901234567000". From 10^21 on it
  uses exponent notation. `Json` numbers are safe integers, whose text is their
  exact decimal digits.
- Submission.BuildCopiesInput: the stored text of a number is exact only for
  safe integers, the only numbers `Json` holds.
- Records.SubmitThenGet: as for `BuildCopiesInput`, a number is read back
  exactly only when it is a safe integer.
- Submission.Validate: the rule that the first required field that does not pass
  decides is stated by `Submission.ValidateReportsFirstFailure`, one field
  position at a time.
- Mongoose's shortcut of casting an object with a string `_id` to that string:
  objects are refused.
- `server.js` and `config/db.js`: CORS, route mounting and the connection flag
  are process plumbing.

=== FILE: js.dfy ===
/** The slice of JavaScript value semantics the route handlers rely on: the JSON
    values `express.json()` produces, truthiness (`!v`), `v.toString()` and
    `String.prototype.trim`. */
module Js {
  import opened Wrappers

  /** `Number.MAX_SAFE_INTEGER`, 2^53 - 1. */
  const MaxSafeInteger: int := 0x1F_FFFF_FFFF_FFFF

  /** The integers a double holds exactly. `toString()` prints one of these as
      its plain decimal digits. */
  type SafeInt = n: int | -MaxSafeInteger <= n <= MaxSafeInteger

  /** A JSON value in a request body. Numbers are safe integers. Of an object only
      one thing matters to the handlers: whether it has an own `toString` member.
      JSON can only give that member a data value, never a function, so calling
      `toString()` on such an object throws a `TypeError`. */
  datatype Json =
    | JNull
    | JBool(b: bool)
    | JNum(n: SafeInt)
    | JStr(s: string)
    | JArr(items: seq<Json>)
    | JObj(ownToString: bool)

  /** JavaScript truthiness: `!v` is false exactly for these values. */
  predicate Truthy(v: Json) {
    match v
    case JNull => false
    case JBool(b) => b
    case JNum(n) => n != 0
    case JStr(s) => s != ""
    case JArr(_) => true
    case JObj(_) => true
  }

  /** Truthiness of an optional string parameter: present and non-empty. */
  predicate Given(p: Option<string>) {
    p.Some? && p.value != ""
  }

  /** The characters `trim` strips: ECMAScript WhiteSpace and LineTerminator. */
  predicate IsSpace(c: char) {
    || c == '\t' || c == '\n' || c == '\U{000B}' || c == '\U{000C}' || c == '\r'
    || c == ' ' || c == '\U{00A0}' || c == '\U{1680}'
    || ('\U{2000}' <= c <= '\U{200A}')
    || c == '\U{2028}' || c == '\U{2029}' || c == '\U{202F}' || c == '\U{205F}'
    || c == '\U{3000}' || c == '\U{FEFF}'
  }

  /** Every character is white space (the empty string included). */
  predicate Blank(s: string) {
    forall i :: 0 <= i < |s| ==> IsSpace(s[i])
  }

  /** Removes leading white space. */
  function TrimStart(s: string): string {
    if |s| > 0 && IsSpace(s[0]) then TrimStart(s[1..]) else s
  }

  /** Removes trailing white space. */
  function TrimEnd(s: string): string {
    if |s| > 0 && IsSpace(s[|s| - 1]) then TrimEnd(s[..|s| - 1]) else s
  }

  /** `String.prototype.trim`. */
  function Trim(s: string): string {
    TrimEnd(TrimStart(s))
  }

  /** `TrimStart` drops a white-space prefix and stops at the first other character. */
  lemma {:induction false} TrimStartStrips(s: string)
    ensures var r := TrimStart(s);
      && |r| <= |s| && r == s[|s| - |r|..]
      && (forall i :: 0 <= i < |s| - |r| ==> IsSpace(s[i]))
      && (r == [] || !IsSpace(r[0]))
  {
    if |s| > 0 && IsSpace(s[0]) {
      var t := s[1..];
      TrimStartStrips(t);
      var r := TrimStart(t);
      assert TrimStart(s) == r;
      assert r == s[|s| - |r|..] by { assert t[|t| - |r|..] == s[|s| - |r|..]; }
      forall i | 0 <= i < |s| - |r| ensures IsSpace(s[i]) {
        if i > 0 { assert s[i] == t[i - 1]; }
      }
    } else {
      assert TrimStart(s) == s;
    }
  }

  /** `TrimEnd` drops a white-space suffix and stops at the last other character. */
  lemma {:induction false} TrimEndStrips(s: string)
    ensures var r := TrimEnd(s);
      && |r| <= |s| && r == s[..|r|]
      && (forall i :: |r| <= i < |s| ==> IsSpace(s[i]))
      && (r == [] || !IsSpace(r[|r| - 1]))
  {
    if |s| > 0 && IsSpace(s[|s| - 1]) {
      var t := s[..|s| - 1];
      TrimEndStrips(t);
      var r := TrimEnd(t);
      assert TrimEnd(s) == r;
      assert r == s[..|r|] by { assert t[..|r|] == s[..|r|]; }
      forall i | |r| <= i < |s| ensures IsSpace(s[i]) {
        if i < |s| - 1 { assert s[i] == t[i]; }
      }
    } else {
      assert TrimEnd(s) == s;
    }
  }

  /** `s.trim() === ""` holds exactly for the white-space-only strings. */
  lemma TrimEmptyIffBlank(s: string)
    ensures Trim(s) == "" <==> Blank(s)
  {
    var t := TrimStart(s);
    var r := TrimEnd(t);
    TrimStartStrips(s);
    TrimEndStrips(t);
    var k := |s| - |t|;
    if r == "" {
      assert t == [];
    } else {
      assert t[0] == r[0] && s[k] == t[0];
      assert !IsSpace(s[k]);
    }
  }

  /** The number a string of decimal digits denotes, most significant first. */
  function DigitsValue(s: string): int {
    if |s| == 0 then 0 else DigitsValue(s[..|s| - 1]) * 10 + (s[|s| - 1] as int - '0' as int)
  }

  /** Decimal digits of a natural number, most significant first: they read
      back as `n`, with no leading zero. */
  function NatText(n: nat): (r: string)
    ensures |r| > 0
    ensures forall i :: 0 <= i < |r| ==> '0' <= r[i] <= '9'
    ensures DigitsValue(r) == n
    ensures |r| == 1 || r[0] != '0'
  {
    if n < 10 then ['0' + n as char]
    else
      var p := NatText(n / 10);
      var r := p + ['0' + (n % 10) as char];
      assert r[..|r| - 1] == p;
      r
  }

  /** `Number.prototype.toString()` for an integer: a minus sign for a negative
      number, then the digits of its magnitude. */
  function IntText(n: int): (r: string)
    ensures |r| > 0 && (n < 0 <==> r[0] == '-')
    ensures n < 0 ==> DigitsValue(r[1..]) == -n
    ensures n >= 0 ==> DigitsValue(r) == n
  {
    if n < 0 then
      var r := "-" + NatText(-n);
      assert r[1..] == NatText(-n);
      r
    else NatText(n)
  }

  /** `v.toString()` returns instead of throwing: no object with an own
      `toString` member is reached, directly or through `join`, which renders
      `null` elements without calling anything on them. */
  predicate Renders(v: Json)
    decreases v
  {
    match v
    case JObj(ownToString) => !ownToString
    case JArr(items) => forall i :: 0 <= i < |items| ==> items[i] == JNull || Renders(items[i])
    case _ => true
  }

  /** The text of `v.toString()` (and `String(v)`) when `Renders(v)`: arrays join their elements with commas,
      rendering `null` elements as the empty string. */
  function ToText(v: Json): string
    decreases v
  {
    match v
    case JNull => "null"
    case JBool(b) => if b then "true" else "false"
    case JNum(n) => IntText(n)
    case JStr(s) => s
    case JArr(items) => JoinText(items)
    case JObj(_) => "[object Object]"
  }

  /** `Array.prototype.join(",")` over the elements' texts. */
  function JoinText(items: seq<Json>): string
    decreases items
  {
    if |items| == 0 then ""
    else
      var head := if items[0] == JNull then "" else ToText(items[0]);
      if |items| == 1 then head else head + "," + JoinText(items[1..])
  }
}

=== FILE: listing.dfy ===
/** GET `/applications` of routes/Admin.js: the query parameters become a
    conjunctive filter, and the reply is every matching document, most recently
    submitted first. */
module Listing {
  import opened Wrappers
  import opened Js
  import opened Schema

  /** The query string; `None` is an absent parameter. */
  datatype ListQuery = ListQuery(
    search: Option<string>,
    gender: Option<string>,
    loanCategory: Option<string>,
    fromDate: Option<string>,
    toDate: Option<string>)

  /** The structured query the handler assembles. Each `None` imposes nothing. */
  datatype Filter = Filter(
    search: Option<string>,
    gender: Option<string>,
    loanCategory: Option<string>,
    from: Option<Time>,
    to: Option<Time>)

  /** A gender or category parameter restricts the listing: truthy and not `"all"`. */
  predicate Selects(p: Option<string>) {
    Given(p) && p.value != "all"
  }

  /** Builds the filter. A date parameter is parsed as a string by `parseDate`;
      a date it cannot parse makes the store refuse the query, and there is no
      filter. */
  function BuildFilter(q: ListQuery, parseDate: DateParser): Option<Filter> {
    var from := if Given(q.fromDate) then parseDate(JStr(q.fromDate.value)) else None;
    var to := if Given(q.toDate) then parseDate(JStr(q.toDate.value)) else None;
    if (Given(q.fromDate) && from.None?) || (Given(q.toDate) && to.None?) then None
    else
      Some(Filter(
        if Given(q.search) then q.search else None,
        if Selects(q.gender) then q.gender else None,
        if Selects(q.loanCategory) then q.loanCategory else None,
        from, to))
  }

  /** ASCII lower case, the case folding the text search applies. */
  function Lower(c: char): char {
    if 'A' <= c <= 'Z' then (c as int + 32) as char else c
  }

  function LowerText(s: string): (r: string)
    ensures |r| == |s| && forall i :: 0 <= i < |s| ==> r[i] == Lower(s[i])
  {
    seq(|s|, i requires 0 <= i < |s| => Lower(s[i]))
  }

  /** Equal up to ASCII case. */
  predicate EqualCI(a: string, b: string) {
    LowerText(a) == LowerText(b)
  }

  /** `text` contains `pattern` somewhere, ignoring ASCII case. */
  predicate ContainsCI(text: string, pattern: string) {
    if |pattern| > |text| then false
    else if EqualCI(text[..|pattern|], pattern) then true
    else if |text| == 0 then false
    else ContainsCI(text[1..], pattern)
  }

  /** The window of `text` at offset `i` equals `pattern` up to case. */
  predicate WindowMatches(text: string, pattern: string, i: int) {
    0 <= i <= |text| - |pattern| && EqualCI(text[i..i + |pattern|], pattern)
  }

  /** A window of the tail is the window one further along in the whole text. */
  lemma SliceOfTail(text: string, i: nat, n: nat)
    requires |text| > 0 && i + n <= |text| - 1
    ensures text[1..][i..i + n] == text[i + 1..i + 1 + n]
  {
  }

  /** A successful search has found a matching window. */
  lemma {:induction false} ContainsCIHasWindow(text: string, pattern: string) returns (i: int)
    requires ContainsCI(text, pattern)
    ensures WindowMatches(text, pattern, i)
  {
    if EqualCI(text[..|pattern|], pattern) {
      assert text[0..0 + |pattern|] == text[..|pattern|];
      i := 0;
    } else {
      var k := ContainsCIHasWindow(text[1..], pattern);
      SliceOfTail(text, k, |pattern|);
      i := k + 1;
    }
  }

  /** A matching window is found by the search. */
  lemma {:induction false} WindowFound(text: string, pattern: string, i: int)
    requires WindowMatches(text, pattern, i)
    ensures ContainsCI(text, pattern)
    decreases i
  {
    if i == 0 {
      assert text[0..0 + |pattern|] == text[..|pattern|];
    } else if !EqualCI(text[..|pattern|], pattern) {
      SliceOfTail(text, i - 1, |pattern|);
      WindowFound(text[1..], pattern, i - 1);
    }
  }

  /** The search is a substring search: some window of `text` equals `pattern`
      up to case. */
  lemma ContainsCIIffWindow(text: string, pattern: string)
    ensures ContainsCI(text, pattern) <==> exists i :: WindowMatches(text, pattern, i)
  {
    if ContainsCI(text, pattern) {
      var i := ContainsCIHasWindow(text, pattern);
    }
    if exists i :: WindowMatches(text, pattern, i) {
      var i :| WindowMatches(text, pattern, i);
      WindowFound(text, pattern, i);
    }
  }

  /** The eight fields the text search looks at. */
  function SearchFields(a: Application): seq<string> {
    [a.name, a.phoneNumber, a.primaryContactNumber, a.address,
     a.referralName1, a.referralName2, a.referralPhone1, a.referralPhone2]
  }

  /** The `$or` of the text search: any of the eight fields contains the term. */
  predicate MatchesSearch(term: string, a: Application) {
    exists i :: 0 <= i < |SearchFields(a)| && ContainsCI(SearchFields(a)[i], term)
  }

  /** A document satisfies every active constraint of the filter. */
  predicate Matches(f: Filter, a: Application) {
    && (f.search.Some? ==> MatchesSearch(f.search.value, a))
    && (f.gender.Some? ==> a.gender == f.gender.value)
    && (f.loanCategory.Some? ==> a.loanCategory == f.loanCategory.value)
    && (f.from.Some? ==> a.submittedAt >= f.from.value)
    && (f.to.Some? ==> a.submittedAt <= f.to.value)
  }

  /** The query parameters' meaning, stated on the parameters themselves: an
      empty or absent search imposes nothing, `"all"` or an empty gender or
      category imposes nothing, the dates are independent inclusive bounds, and
      everything is combined with AND. */
  lemma QueryMeaning(q: ListQuery, parseDate: DateParser, a: Application)
    requires BuildFilter(q, parseDate).Some?
    ensures Matches(BuildFilter(q, parseDate).value, a) <==>
      && (q.search.None? || q.search.value == "" ||
          exists i :: 0 <= i < 8 && ContainsCI(SearchFields(a)[i], q.search.value))
      && (q.gender.None? || q.gender.value in {"", "all"} || a.gender == q.gender.value)
      && (q.loanCategory.None? || q.loanCategory.value in {"", "all"} || a.loanCategory == q.loanCategory.value)
      && (q.fromDate.None? || q.fromDate.value == "" || parseDate(JStr(q.fromDate.value)).value <= a.submittedAt)
      && (q.toDate.None? || q.toDate.value == "" || a.submittedAt <= parseDate(JStr(q.toDate.value)).value)
  {
  }

  /** The filter fails to build exactly when a given date does not parse. */
  lemma BuildFilterFailsOnBadDate(q: ListQuery, parseDate: DateParser)
    ensures BuildFilter(q, parseDate).None? <==>
      || (Given(q.fromDate) && parseDate(JStr(q.fromDate.value)).None?)
      || (Given(q.toDate) && parseDate(JStr(q.toDate.value)).None?)
  {
  }

  /** `"all"` and the empty string are wildcards, the same as leaving the
      parameter out. */
  lemma WildcardsImposeNothing(q: ListQuery, parseDate: DateParser, w: string, w': string)
    requires w in {"", "all"} && w' in {"", "all"}
    ensures BuildFilter(q.(gender := Some(w), loanCategory := Some(w')), parseDate)
         == BuildFilter(q.(gender := None, loanCategory := None), parseDate)
  {
  }

  /** With no parameters every document matches. */
  lemma NoParametersMatchAll(parseDate: DateParser, a: Application)
    ensures var f := BuildFilter(ListQuery(None, None, None, None, None), parseDate);
      f.Some? && Matches(f.value, a)
  {
  }

  /** A listed document with its identifier. */
  datatype Entry = Entry(id: Id, app: Application)

  /** Most recently submitted first. */
  ghost predicate SortedDesc(s: seq<Entry>) {
    forall i, j :: 0 <= i < j < |s| ==> s[i].app.submittedAt >= s[j].app.submittedAt
  }

  /** The documents whose identifier is in `keys` and that match. */
  function MatchingIn(store: Store, f: Filter, keys: set<Id>): set<Entry> {
    set id | id in keys && id in store && Matches(f, store[id]) :: Entry(id, store[id])
  }

  /** Every document of the store that matches. */
  function MatchingEntries(store: Store, f: Filter): set<Entry> {
    MatchingIn(store, f, store.Keys)
  }

  /** Inserts into a descending sequence, keeping it descending. */
  function Insert(e: Entry, s: seq<Entry>): (r: seq<Entry>)
    requires SortedDesc(s)
    ensures |r| == |s| + 1
    ensures r[0] == e || (|s| > 0 && r[0] == s[0])
    ensures SortedDesc(r)
    ensures multiset(r) == multiset(s) + multiset{e}
  {
    if |s| == 0 || e.app.submittedAt >= s[0].app.submittedAt then [e] + s
    else
      var rest := Insert(e, s[1..]);
      assert s == [s[0]] + s[1..];
      assert forall j :: 0 <= j < |rest| ==> rest[j].app.submittedAt <= rest[0].app.submittedAt;
      [s[0]] + rest
  }

  /** Growing the examined keys by one adds that document exactly when it matches. */
  lemma MatchingInGrows(store: Store, f: Filter, keys: set<Id>, id: Id)
    requires id in store && id !in keys
    ensures var e := Entry(id, store[id]);
      && e !in MatchingIn(store, f, keys)
      && multiset(MatchingIn(store, f, keys + {id})) ==
         multiset(MatchingIn(store, f, keys)) + (if Matches(f, store[id]) then multiset{e} else multiset{})
  {
    var e := Entry(id, store[id]);
    var before := MatchingIn(store, f, keys);
    var after := MatchingIn(store, f, keys + {id});
    if Matches(f, store[id]) {
      assert after == before + {e};
    } else {
      assert after == before;
    }
  }

  /** The matching documents, sorted by `submittedAt` descending: a sorted
      permutation of the matching set. */
  method List(store: Store, f: Filter) returns (r: seq<Entry>)
    ensures SortedDesc(r)
    ensures multiset(r) == multiset(MatchingEntries(store, f))
  {
    r := [];
    var pending := store.Keys;
    while pending != {}
      invariant pending <= store.Keys
      invariant SortedDesc(r)
      invariant multiset(r) == multiset(MatchingIn(store, f, store.Keys - pending))
      decreases |pending|
    {
      var id :| id in pending;
      MatchingInGrows(store, f, store.Keys - pending, id);
      assert store.Keys - (pending - {id}) == (store.Keys - pending) + {id};
      if Matches(f, store[id]) {
        r := Insert(Entry(id, store[id]), r);
      }
      pending := pending - {id};
    }
    assert store.Keys - pending == store.Keys;
  }

  /** A sequence with the multiset of a set holds each element once. */
  lemma NoRepeatsFromSet<T>(r: seq<T>, s: set<T>, i: int, j: int)
    requires multiset(r) == multiset(s) && 0 <= i < j < |r|
    ensures r[i] != r[j]
  {
    assert r == r[..j] + [r[j]] + r[j + 1..];
    assert r[..j][i] == r[i];
    assert multiset(r)[r[i]] == multiset(r[..j])[r[i]] + multiset([r[j]])[r[i]] + multiset(r[j + 1..])[r[i]];
  }

  /** A listing holds each matching document once, as stored, and nothing else. */
  lemma ListedExactlyTheMatches(store: Store, f: Filter, r: seq<Entry>)
    requires multiset(r) == multiset(MatchingEntries(store, f))
    ensures forall i :: 0 <= i < |r| ==> r[i].id in store && r[i].app == store[r[i].id] && Matches(f, r[i].app)
    ensures forall id :: id in store && Matches(f, store[id]) ==> Entry(id, store[id]) in r
    ensures forall i, j :: 0 <= i < j < |r| ==> r[i].id != r[j].id
  {
    forall i | 0 <= i < |r|
      ensures r[i].id in store && r[i].app == store[r[i].id] && Matches(f, r[i].app)
    {
      assert r[i] in multiset(r);
    }
    forall id | id in store && Matches(f, store[id])
      ensures Entry(id, store[id]) in r
    {
      assert Entry(id, store[id]) in MatchingEntries(store, f);
      assert Entry(id, store[id]) in multiset(r);
    }
    forall i, j | 0 <= i < j < |r|
      ensures r[i].id != r[j].id
    {
      NoRepeatsFromSet(r, MatchingEntries(store, f), i, j);
    }
  }

  /** The handler's reply. */
  datatype ListResponse = Listed(entries: seq<Entry>) | ListUnauthorized | ListServerError {
    function Status(): int {
      match this
      case Listed(_) => 200
      case ListUnauthorized => 401
      case ListServerError => 500
    }
  }

  /** GET `/applications`. An unauthenticated request is refused before the
      store is read. A date that does not parse, or a search term the store
      cannot compile as a regular expression (`patternCompiles`), is a server
      error. Otherwise the reply is the sorted matching set, which may be empty. */
  method ListApplications(authorized: bool, store: Store, q: ListQuery,
                          parseDate: DateParser, patternCompiles: string -> bool)
    returns (resp: ListResponse)
    ensures !authorized <==> resp.ListUnauthorized?
    ensures resp.ListServerError? <==>
      && authorized
      && (BuildFilter(q, parseDate).None? || (Given(q.search) && !patternCompiles(q.search.value)))
    ensures resp.Listed? ==> && BuildFilter(q, parseDate).Some?
                             && SortedDesc(resp.entries)
                             && multiset(resp.entries) == multiset(MatchingEntries(store, BuildFilter(q, parseDate).value))
  {
    if !authorized {
      return ListUnauthorized;
    }
    var f := BuildFilter(q, parseDate);
    if f.None? || (Given(q.search) && !patternCompiles(q.search.value)) {
      return ListServerError;
    }
    var entries := List(store, f.value);
    return Listed(entries);
  }
}

=== FILE: login.dfy ===
/** POST `/login` of routes/Admin.js: the credential decision ladder. Password
    hashing and token signing are library calls, so they enter as parameters. */
module Login {
  import opened Wrappers
  import opened Js

  type AdminId = nat

  /** A signed access token; its format belongs to the signing library. */
  type Token = string

  /** A stored administrator credential. */
  datatype Admin = Admin(id: AdminId, username: string, passwordHash: string)

  /** `Admin.findOne({ username })`: the first administrator with that name. */
  function FindAdmin(admins: seq<Admin>, username: string): (r: Option<nat>)
    ensures r.None? <==> forall i :: 0 <= i < |admins| ==> admins[i].username != username
    ensures r.Some? ==> r.value < |admins| && admins[r.value].username == username
    ensures r.Some? ==> forall j :: 0 <= j < r.value ==> admins[j].username != username
  {
    if |admins| == 0 then None
    else if admins[0].username == username then Some(0)
    else
      match FindAdmin(admins[1..], username)
      case None => None
      case Some(i) => Some(i + 1)
  }

  /** The reply. A refusal never carries a token. */
  datatype LoginResponse = LoggedIn(token: Token, username: string) | MissingCredentials | InvalidCredentials {
    function Status(): int {
      match this
      case LoggedIn(_, _) => 200
      case MissingCredentials => 400
      case InvalidCredentials => 401
    }
  }

  /** The decision: 400 for a missing or empty credential, 401 when no
      administrator has the name or the password does not match its hash, else
      a token signed over the administrator's id and name. */
  function Login(username: Option<string>, password: Option<string>, admins: seq<Admin>,
                 passwordMatches: (string, string) -> bool,
                 sign: (AdminId, string) -> Token): (r: LoginResponse)
    ensures r.MissingCredentials? <==> !Given(username) || !Given(password)
    ensures r.LoggedIn? ==>
      && Given(username) && Given(password)
      && FindAdmin(admins, username.value).Some?
      && var a := admins[FindAdmin(admins, username.value).value];
         && a.username == r.username == username.value
         && passwordMatches(password.value, a.passwordHash)
         && r.token == sign(a.id, a.username)
    ensures r.InvalidCredentials? <==>
      && Given(username) && Given(password)
      && (|| FindAdmin(admins, username.value).None?
          || !passwordMatches(password.value, admins[FindAdmin(admins, username.value).value].passwordHash))
  {
    if !Given(username) || !Given(password) then MissingCredentials
    else
      match FindAdmin(admins, username.value)
      case None => InvalidCredentials
      case Some(i) =>
        if !passwordMatches(password.value, admins[i].passwordHash) then InvalidCredentials
        else LoggedIn(sign(admins[i].id, admins[i].username), admins[i].username)
  }

  /** A missing credential is refused without consulting the administrators,
      the hash check or the signer: the outcome depends on none of them. */
  lemma MissingCredentialsNeedNoLookup(username: Option<string>, password: Option<string>,
                                       admins: seq<Admin>, admins': seq<Admin>,
                                       matches: (string, string) -> bool, matches': (string, string) -> bool,
                                       sign: (AdminId, string) -> Token, sign': (AdminId, string) -> Token)
    requires !Given(username) || !Given(password)
    ensures Login(username, password, admins, matches, sign) == MissingCredentials
    ensures Login(username, password, admins, matches, sign) == Login(username, password, admins', matches', sign')
  {
  }

  /** An unknown name and a wrong password are indistinguishable to the client:
      both are the same 401 with no token. */
  lemma UnknownUserLikeWrongPassword(username: string, password: string, admins: seq<Admin>,
                                     matches: (string, string) -> bool, sign: (AdminId, string) -> Token,
                                     known: Admin)
    requires username != "" && password != ""
    requires forall i :: 0 <= i < |admins| ==> admins[i].username != username
    requires known.username == username && !matches(password, known.passwordHash)
    ensures Login(Some(username), Some(password), admins, matches, sign)
         == Login(Some(username), Some(password), [known] + admins, matches, sign)
         == InvalidCredentials
  {
    assert ([known] + admins)[0] == known;
  }

  /** Success exactly when some administrator has the name and the first such
      administrator's hash accepts the password. */
  lemma LoginSucceedsIff(username: string, password: string, admins: seq<Admin>,
                         matches: (string, string) -> bool, sign: (AdminId, string) -> Token)
    ensures Login(Some(username), Some(password), admins, matches, sign).LoggedIn? <==>
      && username != "" && password != ""
      && exists i :: 0 <= i < |admins| && admins[i].username == username
                     && matches(password, admins[i].passwordHash)
                     && (forall j :: 0 <= j < i ==> admins[j].username != username)
  {
    if Login(Some(username), Some(password), admins, matches, sign).LoggedIn? {
      var i := FindAdmin(admins, username).value;
      assert 0 <= i < |admins| && admins[i].username == username && matches(password, admins[i].passwordHash);
    }
  }
}

=== FILE: records.dfy ===
/** The single-record handlers of routes/Admin.js: GET `/applications/:id`,
    GET `/applications/:id/pdf` and DELETE `/applications/:id`, over the store
    as a map from identifier to document. */
module Records {
  import opened Wrappers
  import opened Js
  import opened Schema
  import Submission

  /** Reply of GET `/applications/:id`. */
  datatype GetResponse = Found(app: Application) | NotFound | GetUnauthorized {
    function Status(): int {
      match this
      case Found(_) => 200
      case NotFound => 404
      case GetUnauthorized => 401
    }
  }

  /** GET `/applications/:id`: the stored document, or 404. */
  function GetOne(authorized: bool, store: Store, id: Id): (r: GetResponse)
    ensures r.GetUnauthorized? <==> !authorized
    ensures r.NotFound? <==> authorized && id !in store
    ensures r.Found? ==> id in store && r.app == store[id]
  {
    if !authorized then GetUnauthorized
    else if id in store then Found(store[id])
    else NotFound
  }

  /** A character Node's `setHeader` lets through in a header value: tab,
      printable ASCII, or a code unit from 0x80 to 0xFF. Any other character
      makes it throw `ERR_INVALID_CHAR`. */
  predicate HeaderChar(c: char) {
    c == '\t' || (' ' <= c <= '~') || ('\U{0080}' <= c <= '\U{00FF}')
  }

  /** Every character of `s` is allowed in a header value. */
  predicate HeaderSafe(s: string) {
    forall i :: 0 <= i < |s| ==> HeaderChar(s[i])
  }

  /** The `Content-Disposition` value the PDF download sets. */
  function Disposition(name: string): string {
    "attachment; filename=\"" + name + ".pdf\""
  }

  /** The disposition header is accepted exactly when the applicant's name is:
      the text around the name is plain ASCII. */
  lemma DispositionSafeIffName(name: string)
    ensures HeaderSafe(Disposition(name)) <==> HeaderSafe(name)
  {
    var pre := "attachment; filename=\"";
    var post := ".pdf\"";
    assert Disposition(name) == pre + name + post;
    if HeaderSafe(Disposition(name)) {
      forall i | 0 <= i < |name| ensures HeaderChar(name[i]) {
        assert name[i] == Disposition(name)[|pre| + i];
      }
    }
  }

  /** Reply of GET `/applications/:id/pdf`. `Pdf(app)` is a 200 carrying the
      rendering of `app`; the rendering itself is not modelled. `PdfServerError`
      is the 500 of a header Node refuses. */
  datatype PdfResponse = Pdf(app: Application) | PdfNotFound | PdfUnauthorized | PdfServerError {
    function Status(): int {
      match this
      case Pdf(_) => 200
      case PdfNotFound => 404
      case PdfUnauthorized => 401
      case PdfServerError => 500
    }
  }

  /** GET `/applications/:id/pdf`: renders exactly the stored document, with
      the same not-found rule as `GetOne`, and fails when the applicant's name
      cannot go into the `Content-Disposition` header. */
  function ExportPdf(authorized: bool, store: Store, id: Id): (r: PdfResponse)
    ensures r.PdfUnauthorized? <==> !authorized
    ensures r.PdfNotFound? <==> authorized && id !in store
    ensures r.PdfServerError? <==> authorized && id in store && !HeaderSafe(store[id].name)
    ensures r.Pdf? ==> id in store && r.app == store[id]
  {
    if !authorized then PdfUnauthorized
    else if id !in store then PdfNotFound
    else
      DispositionSafeIffName(store[id].name);
      if HeaderSafe(Disposition(store[id].name)) then Pdf(store[id]) else PdfServerError
  }

  /** The PDF export renders the document the detail lookup returns, and
      answers with the same status unless the name is refused as a header. */
  lemma PdfAgreesWithGet(authorized: bool, store: Store, id: Id)
    ensures ExportPdf(authorized, store, id).Pdf? <==>
            GetOne(authorized, store, id).Found? && HeaderSafe(GetOne(authorized, store, id).app.name)
    ensures ExportPdf(authorized, store, id).Pdf? ==>
            ExportPdf(authorized, store, id).app == GetOne(authorized, store, id).app
    ensures ExportPdf(authorized, store, id).PdfServerError? <==>
            GetOne(authorized, store, id).Found? && !HeaderSafe(GetOne(authorized, store, id).app.name)
    ensures ExportPdf(authorized, store, id).Status() == GetOne(authorized, store, id).Status() <==>
            !ExportPdf(authorized, store, id).PdfServerError?
  {
  }

  /** A name the required-field check accepts can still make the download
      fail: "Łukasz" is not blank, but its first letter is outside Latin-1. */
  lemma AcceptedNameCanBreakPdf(a: Application)
    requires a.name == "\U{0141}ukasz"
    ensures !Blank(a.name)
    ensures GetOne(true, map[0 := a], 0).Status() == 200
    ensures ExportPdf(true, map[0 := a], 0).Status() == 500
  {
    assert !IsSpace(a.name[0]);
    assert !HeaderChar(a.name[0]);
  }

  /** Reply of DELETE `/applications/:id`. */
  datatype DeleteResponse = Deleted | DeleteNotFound | DeleteUnauthorized {
    function Status(): int {
      match this
      case Deleted => 200
      case DeleteNotFound => 404
      case DeleteUnauthorized => 401
    }
  }

  /** DELETE `/applications/:id`: removes exactly that key, or 404 with the store
      unchanged. */
  function Delete(authorized: bool, store: Store, id: Id): (out: (DeleteResponse, Store))
    ensures out.0 == DeleteUnauthorized <==> !authorized
    ensures out.0 == DeleteNotFound <==> authorized && id !in store
    ensures !out.0.Deleted? ==> out.1 == store
    ensures out.0.Deleted? ==> && id in store
                               && out.1.Keys == store.Keys - {id}
                               && |out.1| == |store| - 1
                               && forall k :: k in out.1 ==> out.1[k] == store[k]
  {
    if !authorized then (DeleteUnauthorized, store)
    else if id in store then (Deleted, store - {id})
    else (DeleteNotFound, store)
  }

  /** Deletion is one-way: once deleted, the document is not found, and a second
      delete of the same identifier is a 404 that changes nothing. */
  lemma DeleteIsFinal(store: Store, id: Id)
    requires Delete(true, store, id).0.Deleted?
    ensures var s' := Delete(true, store, id).1;
      && GetOne(true, s', id) == NotFound
      && Delete(true, s', id) == (DeleteNotFound, s')
  {
  }

  /** Deleting one document leaves every other lookup as it was. */
  lemma DeleteSparesOthers(store: Store, id: Id, other: Id)
    requires other != id
    ensures GetOne(true, Delete(true, store, id).1, other) == GetOne(true, store, other)
  {
  }

  /** Deletion keeps the store-wide write-time invariant. */
  lemma DeletePreservesWellFormed(authorized: bool, store: Store, id: Id)
    requires StoreWellFormed(store)
    ensures StoreWellFormed(Delete(authorized, store, id).1)
  {
  }

  /** A created submission round-trips: the returned identifier looks up a
      document holding the submitted values, stamped with the request time,
      with the free text exactly when the category is `"other"`. */
  lemma SubmitThenGet(body: Submission.Body, store: Store, now: Time, newId: Id,
                      parseDate: DateParser)
    requires newId !in store
    requires Submission.Submit(body, store, now, newId, parseDate).0.Created?
    ensures var out := Submission.Submit(body, store, now, newId, parseDate);
      var r := GetOne(true, out.1, out.0.id);
      && r.Found?
      && r.app.name == ToText(body["name"])
      && r.app.phoneNumber == ToText(body["phoneNumber"])
      && r.app.primaryContactNumber == ToText(body["primaryContactNumber"])
      && r.app.address == ToText(body["address"])
      && r.app.gender == ToText(body["gender"])
      && r.app.loanCategory == ToText(body["loanCategory"])
      && r.app.referralName1 == ToText(body["referralName1"])
      && r.app.referralPhone1 == ToText(body["referralPhone1"])
      && r.app.referralName2 == ToText(body["referralName2"])
      && r.app.referralPhone2 == ToText(body["referralPhone2"])
      && r.app.submittedAt == now
      && Some(r.app.dateOfBirth) == parseDate(body["dateOfBirth"])
      && r.app.loanCategoryOther == (if Submission.IsOtherCategory(body)
                                     then Some(ToText(body["loanCategoryOther"])) else None)
  {
    Submission.BuildCopiesInput(body, now, parseDate);
  }
}

=== FILE: schema.dfy ===
/** The `Application` document of models/Application.js and the collection that
    holds it. */
module Schema {
  import opened Wrappers
  import opened Js

  /** A point in time, in milliseconds since the epoch (a JavaScript `Date`). */
  type Time = int

  /** `new Date(v)` applied to a value, as Mongoose's `Date` cast does for a body
      value and the listing does for a query string; `None` is an Invalid Date. */
  type DateParser = Json -> Option<Time>

  /** A store-assigned document identifier. */
  type Id = nat

  /** One stored loan inquiry. Every text path is a Mongoose `String`;
      `loanCategoryOther` is the one optional path (`None` is its `null` default). */
  datatype Application = Application(
    name: string,
    phoneNumber: string,
    primaryContactNumber: string,
    address: string,
    dateOfBirth: Time,
    gender: string,
    loanCategory: string,
    loanCategoryOther: Option<string>,
    referralName1: string,
    referralPhone1: string,
    referralName2: string,
    referralPhone2: string,
    submittedAt: Time)

  /** The collection: identifier to document. */
  type Store = map<Id, Application>

  /** The paths the schema declares `required: true`. */
  const RequiredPaths: set<string> := {
    "name", "phoneNumber", "primaryContactNumber", "address", "dateOfBirth", "gender",
    "loanCategory", "referralName1", "referralPhone1", "referralName2", "referralPhone2"
  }

  /** Mongoose's cast of a body value to text for a `String` path: a string
      stays as it is, a number or boolean becomes its `toString()`. `None` covers
      `null`, which casts to `null` and so carries no text (a required path then
      fails validation), and arrays and objects, which fail the cast. */
  function CastText(v: Json): (r: Option<string>)
    ensures r.Some? <==> (v.JStr? || v.JNum? || v.JBool?)
    ensures r.Some? ==> r.value == ToText(v)
  {
    match v
    case JStr(s) => Some(s)
    case JNum(n) => Some(IntText(n))
    case JBool(b) => Some(if b then "true" else "false")
    case _ => None
  }

  /** What the submission path guarantees of every document it writes: required
      text is never blank, and the free-text category is present only with the
      `"other"` category. The store itself enforces neither. */
  predicate WellFormed(a: Application) {
    && !Blank(a.name) && !Blank(a.phoneNumber) && !Blank(a.primaryContactNumber)
    && !Blank(a.address) && !Blank(a.gender) && !Blank(a.loanCategory)
    && !Blank(a.referralName1) && !Blank(a.referralPhone1)
    && !Blank(a.referralName2) && !Blank(a.referralPhone2)
    && (a.loanCategoryOther.Some? ==> a.loanCategory == "other")
  }

  predicate StoreWellFormed(store: Store) {
    forall id :: id in store ==> WellFormed(store[id])
  }
}

=== FILE: submission.dfy ===
/** The public `/formsubmit` handler of routes/Application.js: required-field
    validation in a fixed order, the `"other"` category rule, and construction
    and saving of a new `Application`. */
module Submission {
  import opened Wrappers
  import opened Js
  import opened Schema

  /** A parsed JSON request body; an absent key is `undefined`. */
  type Body = map<string, Json>

  /** A required body key and the title its error message uses. */
  datatype Field = Field(key: string, title: string)

  /** The required fields, in the order the handler checks them. */
  const RequiredFields: seq<Field> := [
    Field("name", "Name"),
    Field("phoneNumber", "Phone Number"),
    Field("primaryContactNumber", "Primary Contact Number"),
    Field("address", "Address"),
    Field("dateOfBirth", "Date of Birth"),
    Field("gender", "Gender"),
    Field("loanCategory", "Loan Category"),
    Field("referralName1", "Referral Name 1"),
    Field("referralPhone1", "Referral Phone 1"),
    Field("referralName2", "Referral Name 2"),
    Field("referralPhone2", "Referral Phone 2")
  ]

  /** The handler's required-field list and the schema's `required` paths are
      the same eleven keys, each listed once. */
  lemma RequiredFieldsMatchSchema()
    ensures |RequiredFields| == 11
    ensures forall i, j :: 0 <= i < j < |RequiredFields| ==> RequiredFields[i].key != RequiredFields[j].key
    ensures (set i | 0 <= i < |RequiredFields| :: RequiredFields[i].key) == RequiredPaths
  {
    var keys := set i | 0 <= i < |RequiredFields| :: RequiredFields[i].key;
    assert RequiredFields[0].key in keys && RequiredFields[1].key in keys;
    assert RequiredFields[2].key in keys && RequiredFields[3].key in keys;
    assert RequiredFields[4].key in keys && RequiredFields[5].key in keys;
    assert RequiredFields[6].key in keys && RequiredFields[7].key in keys;
    assert RequiredFields[8].key in keys && RequiredFields[9].key in keys;
    assert RequiredFields[10].key in keys;
  }

  /** The free-text category is not one of the required fields. */
  lemma OtherNotRequired()
    ensures forall i :: 0 <= i < |RequiredFields| ==> RequiredFields[i].key != "loanCategoryOther"
  {
  }

  /** A field fails when it is absent or falsy, or its text trims to nothing. */
  predicate Fails(body: Body, key: string) {
    key !in body || !Truthy(body[key]) || (Renders(body[key]) && Trim(ToText(body[key])) == "")
  }

  /** A truthy field whose `toString()` throws: the handler's `catch` answers 500. */
  predicate Throws(body: Body, key: string) {
    key in body && Truthy(body[key]) && !Renders(body[key])
  }

  /** The outcome of the handler's test of one required field. */
  datatype Status = Pass | Missing | Throw

  function Check(body: Body, key: string): Status {
    if Fails(body, key) then Missing else if Throws(body, key) then Throw else Pass
  }

  /** A field the required-field check lets through. */
  predicate Passes(body: Body, key: string) {
    Check(body, key) == Pass
  }

  /** The same test without `trim`: a white-space-only value is rejected just
      like a missing one. */
  lemma FailsIffMissingOrBlank(body: Body, key: string)
    ensures Fails(body, key) <==>
            key !in body || !Truthy(body[key]) || (Renders(body[key]) && Blank(ToText(body[key])))
  {
    if key in body {
      TrimEmptyIffBlank(ToText(body[key]));
    }
  }

  /** A string field never throws, and fails exactly when it is white space only. */
  lemma StringFieldFailsIffBlank(body: Body, key: string)
    requires key in body && body[key].JStr?
    ensures !Throws(body, key)
    ensures Fails(body, key) <==> Blank(body[key].s)
  {
    FailsIffMissingOrBlank(body, key);
  }

  /** The position of the first field of `fields` that `fails`, if any. */
  function FirstFailure(fails: Field -> bool, fields: seq<Field>): (r: Option<nat>)
    ensures r.None? <==> forall i :: 0 <= i < |fields| ==> !fails(fields[i])
    ensures r.Some? ==> r.value < |fields| && fails(fields[r.value])
    ensures r.Some? ==> forall j :: 0 <= j < r.value ==> !fails(fields[j])
  {
    if |fields| == 0 then None
    else if fails(fields[0]) then Some(0)
    else
      match FirstFailure(fails, fields[1..])
      case None => None
      case Some(i) => Some(i + 1)
  }

  /** Hence a failing field preceded only by passing ones is the answer. */
  lemma FirstFailureIsUnique(fails: Field -> bool, fields: seq<Field>, i: nat)
    requires i < |fields| && fails(fields[i])
    requires forall j :: 0 <= j < i ==> !fails(fields[j])
    ensures FirstFailure(fails, fields) == Some(i)
  {
    var r := FirstFailure(fails, fields);
    assert r.Some? by { assert fails(fields[i]); }
    assert r.value <= i by { assert fails(fields[i]); }
    assert r.value >= i by { assert fails(fields[r.value]); }
  }

  predicate AllRequiredPresent(body: Body) {
    forall i :: 0 <= i < |RequiredFields| ==> Passes(body, RequiredFields[i].key)
  }

  /** The category is literally `"other"` (strict, case-sensitive equality). */
  predicate IsOtherCategory(body: Body) {
    "loanCategory" in body && body["loanCategory"] == JStr("other")
  }

  /** The `"other"` rule's trigger: the free text is merely falsy (no trim). */
  predicate OtherUnspecified(body: Body) {
    IsOtherCategory(body) && ("loanCategoryOther" !in body || !Truthy(body["loanCategoryOther"]))
  }

  /** The outcome of the validation steps. `Crash` is a `toString()` that threw. */
  datatype Verdict = Accept | Reject(field: string, message: string) | Crash

  const OtherMessage := "Please specify your loan category"

  function RequiredMessage(f: Field): string {
    f.title + " is required"
  }

  /** Validation: the first required field that does not pass decides (a 400
      naming it, or a throw), else the `"other"` rule. */
  function Validate(body: Body): (v: Verdict)
    ensures v == Reject("loanCategoryOther", OtherMessage) <==> AllRequiredPresent(body) && OtherUnspecified(body)
    ensures v.Accept? <==> AllRequiredPresent(body) && !OtherUnspecified(body)
  {
    match FirstFailure((f: Field) => !Passes(body, f.key), RequiredFields)
    case Some(i) =>
      OtherNotRequired();
      if Fails(body, RequiredFields[i].key)
      then Reject(RequiredFields[i].key, RequiredMessage(RequiredFields[i]))
      else Crash
    case None => if OtherUnspecified(body) then Reject("loanCategoryOther", OtherMessage) else Accept
  }

  /** The first required field that does not pass decides the verdict: a 400
      naming it and its label when it is missing or blank, a throw when its
      `toString()` throws. */
  lemma ValidateReportsFirstFailure(body: Body, i: nat)
    requires i < |RequiredFields| && !Passes(body, RequiredFields[i].key)
    requires forall j :: 0 <= j < i ==> Passes(body, RequiredFields[j].key)
    ensures Fails(body, RequiredFields[i].key) ==>
            Validate(body) == Reject(RequiredFields[i].key, RequiredMessage(RequiredFields[i]))
    ensures Throws(body, RequiredFields[i].key) ==> Validate(body) == Crash
  {
    var fails := (f: Field) => !Passes(body, f.key);
    assert fails(RequiredFields[i]);
    assert forall j :: 0 <= j < i ==> !fails(RequiredFields[j]);
    FirstFailureIsUnique(fails, RequiredFields, i);
  }

  /** The text a required key is saved as, if Mongoose can cast it. */
  function Text(body: Body, key: string): (r: Option<string>)
    ensures r.Some? ==> key in body && r.value == ToText(body[key])
  {
    if key in body then CastText(body[key]) else None
  }

  /** The document the handler constructs, or `None` when saving it fails a cast
      (`dateOfBirth` not a valid date, a text path holding an array or object). */
  function Build(body: Body, now: Time, parseDate: DateParser): Option<Application> {
    var name := Text(body, "name");
    var phoneNumber := Text(body, "phoneNumber");
    var primaryContactNumber := Text(body, "primaryContactNumber");
    var address := Text(body, "address");
    var dateOfBirth := if "dateOfBirth" in body then parseDate(body["dateOfBirth"]) else None;
    var gender := Text(body, "gender");
    var loanCategory := Text(body, "loanCategory");
    var loanCategoryOther := if IsOtherCategory(body) then Text(body, "loanCategoryOther") else None;
    var referralName1 := Text(body, "referralName1");
    var referralPhone1 := Text(body, "referralPhone1");
    var referralName2 := Text(body, "referralName2");
    var referralPhone2 := Text(body, "referralPhone2");
    if && name.Some? && phoneNumber.Some? && primaryContactNumber.Some? && address.Some?
       && dateOfBirth.Some? && gender.Some? && loanCategory.Some?
       && (IsOtherCategory(body) ==> loanCategoryOther.Some?)
       && referralName1.Some? && referralPhone1.Some? && referralName2.Some? && referralPhone2.Some?
    then
      Some(Application(name.value, phoneNumber.value, primaryContactNumber.value, address.value,
                       dateOfBirth.value, gender.value, loanCategory.value, loanCategoryOther,
                       referralName1.value, referralPhone1.value, referralName2.value,
                       referralPhone2.value, now))
    else None
  }

  /** Every text path of a built document is the text of the submitted value,
      `submittedAt` is the request time, and the free text survives exactly when
      the category is `"other"`, even when text was sent with another category. */
  lemma BuildCopiesInput(body: Body, now: Time, parseDate: DateParser)
    requires Build(body, now, parseDate).Some?
    ensures var a := Build(body, now, parseDate).value;
      && a.name == ToText(body["name"])
      && a.phoneNumber == ToText(body["phoneNumber"])
      && a.primaryContactNumber == ToText(body["primaryContactNumber"])
      && a.address == ToText(body["address"])
      && Some(a.dateOfBirth) == parseDate(body["dateOfBirth"])
      && a.gender == ToText(body["gender"])
      && a.loanCategory == ToText(body["loanCategory"])
      && a.referralName1 == ToText(body["referralName1"])
      && a.referralPhone1 == ToText(body["referralPhone1"])
      && a.referralName2 == ToText(body["referralName2"])
      && a.referralPhone2 == ToText(body["referralPhone2"])
      && a.submittedAt == now
      && (a.loanCategoryOther.Some? <==> IsOtherCategory(body))
      && (a.loanCategoryOther.Some? ==> a.loanCategoryOther.value == ToText(body["loanCategoryOther"]))
  {
  }

  /** A field that passes the check has non-blank text. */
  lemma PresentTextNotBlank(body: Body, key: string)
    requires Passes(body, key)
    ensures key in body && !Blank(ToText(body[key]))
  {
    FailsIffMissingOrBlank(body, key);
  }

  /** A document built from a body whose required fields all pass keeps the
      schema's write-time invariant. */
  lemma PresentBuildIsWellFormed(body: Body, now: Time, parseDate: DateParser)
    requires AllRequiredPresent(body)
    requires Build(body, now, parseDate).Some?
    ensures WellFormed(Build(body, now, parseDate).value)
  {
    BuildCopiesInput(body, now, parseDate);
    assert Passes(body, RequiredFields[0].key) && Passes(body, RequiredFields[1].key);
    assert Passes(body, RequiredFields[2].key) && Passes(body, RequiredFields[3].key);
    assert Passes(body, RequiredFields[5].key) && Passes(body, RequiredFields[6].key);
    assert Passes(body, RequiredFields[7].key) && Passes(body, RequiredFields[8].key);
    assert Passes(body, RequiredFields[9].key) && Passes(body, RequiredFields[10].key);
    PresentTextNotBlank(body, "name");
    PresentTextNotBlank(body, "phoneNumber");
    PresentTextNotBlank(body, "primaryContactNumber");
    PresentTextNotBlank(body, "address");
    PresentTextNotBlank(body, "gender");
    PresentTextNotBlank(body, "loanCategory");
    PresentTextNotBlank(body, "referralName1");
    PresentTextNotBlank(body, "referralPhone1");
    PresentTextNotBlank(body, "referralName2");
    PresentTextNotBlank(body, "referralPhone2");
  }

  /** A document built from an accepted body keeps the schema's write-time
      invariant. */
  lemma AcceptedBuildIsWellFormed(body: Body, now: Time, parseDate: DateParser)
    requires Validate(body).Accept?
    requires Build(body, now, parseDate).Some?
    ensures WellFormed(Build(body, now, parseDate).value)
  {
    PresentBuildIsWellFormed(body, now, parseDate);
  }

  /** The handler's reply. */
  datatype SubmitResponse = Created(id: Id) | Invalid(field: string, message: string) | ServerError {
    function Status(): int {
      match this
      case Created(_) => 201
      case Invalid(_, _) => 400
      case ServerError => 500
    }
  }

  /** POST `/formsubmit`: validate, build, save under the fresh identifier the
      store hands out. A rejected or failing request writes nothing; a rejection
      carries exactly the verdict of `Validate`; an accepted body whose values
      all cast is always created. */
  function Submit(body: Body, store: Store, now: Time, newId: Id, parseDate: DateParser)
    : (out: (SubmitResponse, Store))
    requires newId !in store
    ensures out.0.Invalid? <==> Validate(body).Reject?
    ensures out.0.Invalid? ==> Validate(body) == Reject(out.0.field, out.0.message)
    ensures out.0.Created? <==> Validate(body).Accept? && Build(body, now, parseDate).Some?
    ensures !out.0.Created? ==> out.1 == store
    ensures out.0.Created? ==> out.0.id == newId && Build(body, now, parseDate).Some?
                               && out.1 == store[newId := Build(body, now, parseDate).value]
  {
    var v := Validate(body);
    if v.Reject? then (Invalid(v.field, v.message), store)
    else if v.Crash? then (ServerError, store)
    else
      match Build(body, now, parseDate)
      case None => (ServerError, store)
      case Some(a) => (Created(newId), store[newId := a])
  }

  /** A successful submission adds exactly one document, under the new
      identifier, stamped with the request time and well formed; every document
      already stored is untouched. */
  lemma SubmitAddsOneRecord(body: Body, store: Store, now: Time, newId: Id, parseDate: DateParser)
    requires newId !in store
    requires Submit(body, store, now, newId, parseDate).0.Created?
    ensures var s' := Submit(body, store, now, newId, parseDate).1;
      && s'.Keys == store.Keys + {newId}
      && |s'| == |store| + 1
      && (forall id :: id in store ==> s'[id] == store[id])
      && WellFormed(s'[newId])
      && s'[newId].submittedAt == now
  {
    AcceptedBuildIsWellFormed(body, now, parseDate);
  }

  /** Submission preserves the store-wide write-time invariant. */
  lemma SubmitPreservesWellFormed(body: Body, store: Store, now: Time, newId: Id, parseDate: DateParser)
    requires newId !in store && StoreWellFormed(store)
    ensures StoreWellFormed(Submit(body, store, now, newId, parseDate).1)
  {
    if Submit(body, store, now, newId, parseDate).0.Created? {
      SubmitAddsOneRecord(body, store, now, newId, parseDate);
    }
  }

  /** Nothing is unique: the same body submitted twice is stored twice, as two
      documents under distinct identifiers whose contents differ only in
      `submittedAt`. */
  lemma DuplicateSubmissionsPersist(body: Body, store: Store, now: Time, later: Time,
                                    id1: Id, id2: Id, parseDate: DateParser)
    requires id1 !in store && id2 !in store && id1 != id2
    requires Submit(body, store, now, id1, parseDate).0.Created?
    ensures var s1 := Submit(body, store, now, id1, parseDate).1;
      var out := Submit(body, s1, later, id2, parseDate);
      && out.0 == Created(id2)
      && id1 in out.1 && id2 in out.1
      && |out.1| == |store| + 2
      && out.1[id1].(submittedAt := later) == out.1[id2]
  {
  }
}

=== FILE: wrappers.dfy ===
/** Option, the one wrapper this model needs. `None` stands for JavaScript's
    `null`/`undefined` and for a failed cast or parse. */
module Wrappers {

  datatype Option<+T> = None | Some(value: T)
}
